=== FILE: README.md ===
# Directory-tree crawler: Dafny model

This project models the core of a crawler that indexes the directory trees of
remote FTP sites into a per-site snapshot store:

- **the adaptive walk** `walkShallow`. It lists a directory, peeks at each
  subdirectory before recursing, and learns a `maxdepth` when a peek finds
  non-directory content.
- **the listing wrapper** `Crawler.List`. It turns a failing `Stat` into an
  empty listing.
- **the leaf filter** `makeDirs`. It keeps every entry that is neither `.`/`..`
  nor the parent of another entry.
- **the run sequencing** `Crawler.Run`: walk, filter, delete the site's old
  rows, insert the new ones.
- **the commands of `main.go`**: the config-path rule of `readConfig`, the
  garbage collection of `gc`, and the per-site loop of `update`, which skips a
  site on failure.

Files and modules:

- `results.dfy` (`Results`): `Result`, `Outcome` and `Option`, standing in for
  Go's error returns.
- `paths.dfy` (`Paths`): an absolute path is a sequence of segments. `Join`
  appends a segment. `Dir` drops the last segment, and the root is its own
  parent. `Depth` counts segments, which equals Go's `strings.Count(p, "/")`
  for an absolute path other than `/`. `Depth` is only applied to joined
  subpaths, which are never `/`.
- `entries.dfy` (`Entries`): listed entries (`File`: name, path, kind,
  modification time) and persisted rows (`DirRow`).
- `leaves.dfy` (`Leaves`): the leaf filter. `LeafRows` is a functional
  definition and `MakeDirs` is the nested loop as written.
- `walker.dfy` (`Walker`): the lister abstraction, `Crawler.List`, the walk,
  a reference `FullWalk`, and the lemmas about them.
- `store.dfy` (`Store`): the snapshot store as a map from site name to rows.
- `crawler.dfy` (`Crawler`): `Run`.
- `sequences.dfy` (`Sequences`): order-preserving subsequences.
- `commands.dfy` (`Commands`): `readConfig`, `gc` and `update`.
- `scenarios.dfy` (`Scenarios`): concrete trees and site lists worked through
  the model.

The lister is a pure function `Path -> Result<seq<File>>`. Because it is pure,
the peek of a subdirectory and the later listing of the same subdirectory
return the same entries.

The code only terminates because remote trees are finite. The model states
this as `Walker.Bounded(lister, bound)`: at depth `bound` or deeper, no
successful listing contains a subdirectory the walk could enter. The walk's
termination measure is `bound - |path|`.

Network, SQL engine and environment appear only as parameters:

- dial and login results;
- `Stat` results and the parser;
- store faults;
- `HOME`.

## Behaviour worth noting

- Peek entries are not added to the result. A content directory's peek is
  thrown away, and a descended directory is listed a second time by the
  recursive call (crawler/crawler.go:129-143).
- The learned limit is `depth - 1`, not `depth`. On a content peek the code
  sets `maxdepth = depth - 1`, which is the depth of the current directory.
  Later siblings are then beyond the limit and are neither peeked nor
  descended. Directly under `/` the learned limit is 0, which the guard
  `maxdepth > 0` treats as unbounded. `Scenarios.ContentLimitsSiblings` and
  `Scenarios.LearnedLimitZeroIsUnbounded` show both cases.
- Only `Stat` failures are swallowed. `walkShallow` propagates every listing
  error. Only `Crawler.List` turns a `Stat` failure into an empty listing,
  and a parser error still aborts the whole walk
  (`Walker.CrawlerWalkFailsOnlyOnParse`).
- The leaf filter ignores the entry kind. `makeDirs` never looks at the kind,
  so a file entry with no children is kept. A successful walk returns only
  directories beyond the root's own listing, so non-directory rows can only
  come from the root listing (`Crawler.RunStoresListedLeaves`).
- `update` ignores `--site`. The flag is declared (main.go:23) but never read,
  so every configured site is crawled.

## Model

| member | source | states |
|---|---|---|
| `Leaves.MakeDirs` | crawler/crawler.go:87-108 | The nested loop that skips `.`/`..` and any entry that is some entry's parent returns exactly the functional leaf set `LeafRows`. It never returns more rows than entries, and an empty input gives an empty output. |
| `Leaves.LeafRowsAreKeptInOrder` | crawler/crawler.go:87-107 | The output is, in input order, the rows of exactly the kept input positions. Each row copies name, path and modification time from its entry, and a position appears iff its entry is kept. |
| `Leaves.LeafRowsMembership` | crawler/crawler.go:90-105 | A row is in the output iff it is the row of an input entry that is not `.`/`..` and is not the parent of any input entry. The inner scan covers `.`/`..` entries too. |
| `Leaves.NoParentChild` | crawler/crawler.go:95-99 | No output row is the direct parent of another output row, or of itself. |
| `Leaves.ChildlessEntryKept` | crawler/crawler.go:90-105 | Any entry other than `.`/`..` with no listed child is kept, whatever its kind, so a plain file is kept. |
| `Leaves.LeafRowsIgnoreKind` | crawler/crawler.go:90-105 | Two inputs that differ only in entry kinds give the same output. |
| `Walker.CrawlerList` | crawler/crawler.go:58-65 | A failing `Stat` gives an empty, successful listing. A successful `Stat` gives exactly the parser's result on its message, so any error returned is the parser's. |
| `Walker.WalkShallow` | crawler/crawler.go:110-146 | If the directory's own listing fails, the walk fails with that error. On success the result starts with that listing, unmodified. |
| `Walker.Walk` | crawler/crawler.go:67-69 | The crawler's walk starts at `maxdepth` -1, and that is the same walk as one starting at the learned limit 0: both are unbounded. |
| `Walker.UnboundedLimitsAgree` | crawler/crawler.go:123-145 | Any two limits `<= 0` give the same walk, errors included. The guard `maxdepth > 0` never fires for them, and a content peek sets the same new limit whichever one was current. |
| `Walker.WalkShallowErrorOrigin` | crawler/crawler.go:111-142 | A failed walk returns, unchanged, the error of some listing at or below the root. The failing listing can be the directory itself, a peek, or one inside a recursive call. |
| `Walker.WalkSucceedsWhenListingsDo` | crawler/crawler.go:110-146 | If every listing at or below the root succeeds, the walk succeeds. |
| `Walker.CrawlerWalkFailsOnlyOnParse` | crawler/crawler.go:58-69 | A walk through `Crawler.List` fails only with a parser error at some path below the root. A failing `Stat` never aborts it. |
| `Walker.WalkShallowSound` | crawler/crawler.go:111-145 | Every entry of a successful walk was returned by some successful listing at or below the root. |
| `Walker.WalkShallowAppendsDirectories` | crawler/crawler.go:129-145 | After the root's own listing, a successful walk returns only directory entries. Content directories are not descended, and their peeks are not added. |
| `Walker.LimitedLoopAppendsNothing` | crawler/crawler.go:123-127 | When `0 < maxdepth <= depth(path)`, every remaining subdirectory is beyond the limit. It is neither peeked nor descended, and nothing is appended. |
| `Walker.ContentPeekEndsLoop` | crawler/crawler.go:129-137 | Below `/`, once a peek finds content, the rest of that directory's loop peeks and appends nothing. |
| `Walker.WalkShallowIsFullWalk` | crawler/crawler.go:110-146 | On a tree of directories only, an unbounded walk (`maxdepth <= 0`) equals `FullWalk`, the plain recursive listing of every directory. Its errors equal `FullWalk`'s too. |
| `Store.DeleteDirs` | crawler/crawler.go:77 | The site's rows become empty, the set of sites is unchanged, and every other site keeps its rows. |
| `Store.EnsureSite` | database/database.go:65-88 | Looking a site up creates it, with no rows, when it is missing. An existing site keeps its rows, and no other site changes. |
| `Store.Insert` | database/database.go:90-108 | The site is created if it is missing, one row per dir is appended after its existing rows, and every other site is unchanged. |
| `Store.ReplaceLeavesExactlyNewRows` | crawler/crawler.go:77-82 | Deleting then inserting leaves exactly the new rows for the site. No other site changes. |
| `Store.ReplaceTwice` | crawler/crawler.go:77-82 | After two replacements in a row, only the second snapshot remains. |
| `Crawler.Run` | crawler/crawler.go:71-85 | A failed walk touches no store. A failed delete skips the insert. If `Insert` fails before the site row exists (the first lookup or the site's own insert), the site's rows stay deleted and no site is created. If it fails after the site row exists (the second lookup, opening the row transaction, a row insert or the commit), the site exists, created if it was missing, with no rows. `Run` succeeds iff the walk, delete and insert all succeed, and then the site's rows are the leaf rows of the walk. Other sites are never touched. |
| `Crawler.RunStoresListedLeaves` | crawler/crawler.go:72-80 | After a successful run, each stored row comes from an entry listed below the root that is a directory or is in the root's own listing. No stored row is another's parent. |
| `Commands.ExpandConfigName` | main.go:105-109 | Only the exact name `~/.ftpscrc` is expanded, and every other name is passed through. The expansion is `HOME`, without a trailing slash, followed by `/.ftpscrc`. This gives `/.ftpscrc` when `HOME` is `/` and `.ftpscrc` when `HOME` is empty. |
| `Commands.ExpandedConfigInHome` | main.go:105-109 | For a clean `HOME` (no `//`, no `.` or `..` segment, no trailing slash except on `/`), `filepath.Dir` of the expanded name is `HOME` itself, or `.` when `HOME` is empty. `filepath.Base` is `.ftpscrc`, so the expansion puts the file directly inside `HOME`. |
| `Commands.SelectRemovals` | main.go:78-90 | The selection loop, with its early `break`, returns exactly `RemovalCandidates`. |
| `Commands.RemovalMembership` | main.go:78-90 | A site is selected iff it is persisted and no configured site has its name. |
| `Commands.RemovalIsSubsequence` | main.go:79-89 | The removal list is an order-preserving subsequence of the persisted list. |
| `Commands.EmptyConfigRemovesAll` | main.go:79-88 | With no configured site, every persisted site is selected, in order. |
| `Commands.UnpersistedConfigIrrelevant` | main.go:81-86 | Adding configured sites whose names are not persisted leaves the removal list unchanged. |
| `Commands.DeletingLines` | main.go:92-94 | One `Deleting <name>` line per candidate, in order. |
| `Commands.GcExecute` | main.go:68-103 | If opening the database or reading the sites fails, there are no effects. A dry run only prints, one line per candidate, and succeeds. Otherwise the effects are exactly `DeleteSites` of the candidates, followed by `Vacuum` iff the delete succeeded. A delete failure is the outcome; after a successful delete, a vacuum failure is. The command succeeds iff both succeed. |
| `Commands.GcKeepsExactlyConfigured` | main.go:97-102 | A successful gc leaves exactly the configured sites of the store, with their rows untouched. Removed sites take their rows with them. |
| `Commands.UpdateSite` | main.go:38-63 | A failed dial is reported with its error and the site goes no further. Once connected, `LoginWithTLS` or `Login` is tried as the site's TLS setting says, and its failure is reported and changes nothing. Once logged in, `Crawler.Run` decides the store and whether the site is reported as crawled or as a failed crawl with the run's error. A successful crawl stores the site's leaf rows. Other sites are untouched. |
| `Commands.EachSite` | main.go:37-64 | The site loop around any iteration body yields one report per site. |
| `Commands.EachSiteInTurn` | main.go:37-64 | Report `k` of the loop is the body applied to site `k` and to the store the first `k` iterations left. |
| `Commands.EachSiteStore` | main.go:37-64 | The store after the loop is the one all iterations leave, in order. |
| `Commands.UpdateSites` | main.go:37-64 | Every configured site gets exactly one report, in configuration order. Report `k` is the outcome of site `k`'s own attempt on the store the first `k` attempts left, so a failing site is skipped and every later site is still attempted. The final store is the one all attempts leave in turn. |
| `Commands.UpdateExecute` | main.go:31-66 | Only a failure to open the database fails the command, with the open error itself, and then nothing is attempted. Otherwise every site is attempted in turn, as in `UpdateSites`. |
| `Commands.UpdateReportsFollowSites` | main.go:39-63 | Whatever earlier sites did, each site's report carries its own name. It is a dial failure iff its dial fails, a login failure (with its TLS setting and the login's error) iff it connects and its login fails, and a crawl report iff it connects and logs in. |
| `Commands.UpdateLeavesOtherSites` | main.go:37-64 | A site that is not configured keeps its presence and its rows through an update. |
| `Commands.UnreachableSitesChangeNothing` | main.go:39-44 | If no site can be dialled, every report is a dial failure and the store is unchanged. |
| `Scenarios.RootTreeWalk` | crawler/crawler.go:110-146 | With `/root` holding `a` (empty directories `x`, `y`) and `b` (a file), the walk returns `a, b, a/x, a/y`. `b` is peeked but not descended, and its file is not added. |
| `Scenarios.RootTreeLeaves` | crawler/crawler.go:87-108 | The leaves of that walk are `b`, `a/x` and `a/y`. |
| `Scenarios.FailingStatDoesNotStopSiblings` | crawler/crawler.go:58-65 | A failing `Stat` on `/root/a/x` makes it empty, and its sibling `/root/a/y` is still walked and included. |
| `Scenarios.ContentLimitsSiblings` | crawler/crawler.go:124-137 | Under `/srv`, after `a` shows content, the unreadable sibling `b` is never peeked, and the walk succeeds. |
| `Scenarios.LearnedLimitZeroIsUnbounded` | crawler/crawler.go:124-137 | Directly under `/`, the learned limit 0 does not limit. `b` is peeked and its error aborts the walk. |
| `Scenarios.GcRemovesUnconfiguredSite` | main.go:78-102 | With `A`, `B` configured and `A`, `B`, `C` persisted, only `C` is selected. A dry run prints `Deleting C`, and a real run deletes `[C]` and then vacuums. |

## Left out

- FTP transport: `Connect`, `DialTimeout`, `Login`, `LoginWithTLS`, `Stat`
  and `ftp.ParseFiles` are network I/O and an external parser. They appear
  only as parameters: dial and login results, a `Stat` function and a parse
  function.
- TLS configuration and connect timeouts, including the skipped certificate
  check. These belong to the transport.
- Logging (`Logf`, `logger.Printf`, `log.Printf`). It has no effect on results.
  The `Removing %d sites` and `Running vacuum` log lines are not in the effect
  trace.
- Command-line parsing with go-flags (main.go:117-133). It is a library.
- Reading the configuration file. `readConfig` passes the expanded name to
  `crawler.ReadConfig` and exits the process through `log.Fatal` when that
  fails (main.go:110-113). `crawler.ReadConfig` is not part of this model, and
  `Commands.ExpandConfigName` models only the rule for the file name.
- `database/database.go` as SQL. Uniqueness, `ON DELETE CASCADE`,
  transactions and the write mutex are enforced by SQLite or concern
  concurrency. The store is a map from site name to rows.
- `DeleteDirs`, `DeleteSites`, `GetSites` and `Vacuum` are not defined in the
  database source shown. They are modelled by what their call sites need. A
  failing `DeleteDirs` leaves its input store unchanged.
- `Insert` fails in one of two places. A failure of the first site lookup
  (database/database.go:78) or of the insert of a missing site
  (database/database.go:65-75) leaves no new site. Any failure once that
  insert has committed leaves the new site with none of the new rows: the
  second lookup (database/database.go:83), `Beginx` (database/database.go:98),
  a row insert (database/database.go:103) or the commit
  (database/database.go:107). The row transaction is never committed in these
  cases.
- The cross-revision API mismatches: `crawler.New` called with four arguments,
  and `Insert` taking `ftp.File` while being passed `database.Dir`. The store
  interface stays abstract. The same mismatch covers the `modified` field of a
  stored row: `makeDirs` sets `Modified` (crawler/crawler.go:103), but the
  `entry` table has no such column (database/database.go:20-27) and `Insert`
  writes only the path and the name (database/database.go:103). The model
  keeps the field on `DirRow` as `makeDirs` builds it.
- `defer ftpClient.Quit()` (main.go:40). It is registered before the dial
  error is checked, so it also runs when `Execute` returns, on the client
  that a failed dial returned. `UpdateExecute`'s "only a failure to open the
  database fails the command" assumes those deferred calls are harmless. The
  `ftp` package that defines `Quit` is not part of this model.
- Conversion from `time.Time` to Unix seconds. The modification time is an
  integer.
- Paths.Join: models `filepath.Join` and `filepath.Dir` on clean,
  single-segment names only. Relative roots, `..` and repeated slashes are out
  of scope, which makes `strings.Count(subpath, "/")` equal to the segment
  count.
- Commands.ExpandConfigName: does not model `filepath.Clean` of `HOME`
  (repeated slashes, `.`/`..`, a trailing slash after another segment). It
  states Go's result for a clean `HOME`, where only `/` ends in a slash.
- Walker.WalkShallow: needs `Bounded(lister, bound)`, the assumption that the
  remote tree is finite. The walk is undefined on an infinitely deep lister,
  and the code would not terminate on one either.
- Walker.WalkShallow: listings are pure. The peek of a directory and its later
  listing by the recursive call always agree. A server whose contents change
  between the two calls is not modelled.
- Commands.UpdateSite: per-site store faults and login results are fixed
  functions of the site, not of time.
- Commands.UpdateSites: needs `EnvBounded(env)`, the assumption that every
  site's remote tree is finite below its `env.bound` depth, for the same
  reason as `Walker.WalkShallow`.

=== FILE: commands.dfy ===
/**
 The commands of main.go: the config-path rule of `readConfig`, garbage
 collection of sites that left the configuration (`gcCmd.Execute`), and the
 per-site crawl loop of `updateCmd.Execute`. Database, network and
 environment are abstract parameters.
 */
module Commands {
  import opened Results
  import opened Paths
  import opened Entries
  import opened Leaves
  import opened Walker
  import opened Store
  import opened Crawler
  import opened Sequences

  // ---------------------------------------------------------------- readConfig

  /** The default value of the `--config` option. */
  const DefaultConfig: string := "~/.ftpscrc"

  /** `filepath.Join(dir, base)` for a clean `dir` and a single-segment `base`. */
  function JoinName(dir: string, base: string): string
  {
    if dir == "" then base
    else if dir[|dir| - 1] == '/' then dir + base
    else dir + "/" + base
  }

  /** A clean directory without its trailing slash; only `/` has one, and it becomes empty. */
  function TrimSlash(dir: string): string
  {
    if dir != [] && dir[|dir| - 1] == '/' then dir[..|dir| - 1] else dir
  }

  /** `readConfig`: only the literal default name is expanded against `HOME`. */
  function ExpandConfigName(name: string, home: string): (r: string)
    ensures name != DefaultConfig ==> r == name
    ensures name == DefaultConfig && home == "" ==> r == ".ftpscrc"
    ensures name == DefaultConfig && home != "" ==> r == TrimSlash(home) + "/.ftpscrc"
  {
    if name == DefaultConfig then JoinName(home, ".ftpscrc") else name
  }

  /** Index of the last `/` in `s`, or -1 when there is none. */
  function LastSlash(s: string): (i: int)
    ensures -1 <= i < |s|
    ensures i >= 0 ==> s[i] == '/'
    ensures forall j :: i < j < |s| ==> s[j] != '/'
  {
    if s == [] then -1
    else if s[|s| - 1] == '/' then |s| - 1
    else LastSlash(s[..|s| - 1])
  }

  /** `filepath.Dir` of a file name whose directory part is clean. */
  function DirName(s: string): string
  {
    var i := LastSlash(s);
    if i < 0 then "." else if i == 0 then "/" else s[..i]
  }

  /** `filepath.Base` of a file name that does not end in `/`. */
  function BaseName(s: string): string
  {
    s[LastSlash(s) + 1..]
  }

  /**
   The expanded default name is the file `.ftpscrc` inside `HOME`: splitting
   it again gives back `HOME` (the current directory when `HOME` is empty)
   and `.ftpscrc`. This holds for a clean `HOME` only: no trailing slash
   except on `/`, no `//`, and no `.` or `..` segment, which `filepath.Dir`
   would clean away and `DirName` does not.
   */
  lemma {:induction false} ExpandedConfigInHome(home: string)
    requires home == "/" || home == "" || home[|home| - 1] != '/'
    requires forall j :: 0 <= j < |home| - 1 ==> !(home[j] == '/' && home[j + 1] == '/')
    ensures var r := ExpandConfigName(DefaultConfig, home);
      && DirName(r) == (if home == "" then "." else home)
      && BaseName(r) == ".ftpscrc"
  {
    var r := ExpandConfigName(DefaultConfig, home);
    var dir := TrimSlash(home);
    if home == "" {
      assert forall j :: 0 <= j < |r| ==> r[j] != '/';
      NoSlash(r);
    } else {
      assert r == dir + "/.ftpscrc";
      assert r[|dir|] == '/';
      assert forall j :: |dir| < j < |r| ==> r[j] != '/';
      SlashAt(r, |dir|);
      assert r[..|dir|] == dir;
    }
  }

  /** A `/` at `i` with none after it is the last slash. */
  lemma {:induction false} SlashAt(s: string, i: nat)
    requires i < |s| && s[i] == '/'
    requires forall j :: i < j < |s| ==> s[j] != '/'
    ensures LastSlash(s) == i
    decreases |s|
  {
    if i < |s| - 1 {
      var t := s[..|s| - 1];
      assert forall j :: i < j < |t| ==> t[j] != '/';
      SlashAt(t, i);
    }
  }

  /** A name without any `/` has no last slash. */
  lemma {:induction false} NoSlash(s: string)
    requires forall j :: 0 <= j < |s| ==> s[j] != '/'
    ensures LastSlash(s) == -1
    decreases |s|
  {
    if s != [] {
      NoSlash(s[..|s| - 1]);
    }
  }

  // ---------------------------------------------------------------- gc

  /** A persisted site row (`database.Site`). */
  datatype SiteRecord = SiteRecord(id: int, name: string)

  /** A configured site, with the fields the commands read. */
  datatype SiteConfig = SiteConfig(name: string, address: string, tls: bool, root: Path)

  predicate Configured(configured: seq<SiteConfig>, name: string)
  {
    exists c :: c in configured && c.name == name
  }

  /** The persisted sites, in order, whose name no configured site carries. */
  function RemovalCandidates(persisted: seq<SiteRecord>, configured: seq<SiteConfig>): seq<SiteRecord>
    decreases |persisted|
  {
    if persisted == [] then []
    else
      var last := persisted[|persisted| - 1];
      RemovalCandidates(persisted[..|persisted| - 1], configured)
        + (if Configured(configured, last.name) then [] else [last])
  }

  /** The selection loop of `gcCmd.Execute`, with its early `break` on a match. */
  method SelectRemovals(persisted: seq<SiteRecord>, configured: seq<SiteConfig>) returns (remove: seq<SiteRecord>)
    ensures remove == RemovalCandidates(persisted, configured)
    ensures |remove| <= |persisted|
  {
    remove := [];
    var i := 0;
    while i < |persisted|
      invariant 0 <= i <= |persisted|
      invariant remove == RemovalCandidates(persisted[..i], configured)
      invariant |remove| <= i
    {
      var s1 := persisted[i];
      var found := false;
      var j := 0;
      while j < |configured|
        invariant 0 <= j <= |configured|
        invariant !found ==> forall k :: 0 <= k < j ==> configured[k].name != s1.name
        invariant found ==> Configured(configured, s1.name)
      {
        if s1.name == configured[j].name {
          found := true;
          break;
        }
        j := j + 1;
      }
      assert persisted[..i + 1][..i] == persisted[..i];
      if !found {
        remove := remove + [s1];
      }
      i := i + 1;
    }
    assert persisted[..|persisted|] == persisted;
  }

  /** A persisted site is a removal candidate iff no configured site has its name. */
  lemma {:induction false} RemovalMembership(persisted: seq<SiteRecord>, configured: seq<SiteConfig>, s: SiteRecord)
    ensures s in RemovalCandidates(persisted, configured) <==> s in persisted && !Configured(configured, s.name)
    decreases |persisted|
  {
    if persisted != [] {
      var n := |persisted| - 1;
      RemovalMembership(persisted[..n], configured, s);
      assert persisted == persisted[..n] + [persisted[n]];
    }
  }

  /** The removal list keeps the order of the persisted list. */
  lemma {:induction false} RemovalIsSubsequence(persisted: seq<SiteRecord>, configured: seq<SiteConfig>)
    ensures IsSubsequence(RemovalCandidates(persisted, configured), persisted)
    decreases |persisted|
  {
    if persisted != [] {
      var n := |persisted| - 1;
      var init := persisted[..n];
      RemovalIsSubsequence(init, configured);
      var r := RemovalCandidates(persisted, configured);
      var r0 := RemovalCandidates(init, configured);
      if Configured(configured, persisted[n].name) {
        assert r == r0;
        SubsequenceOfPrefix(r0, persisted);
      } else {
        assert r == r0 + [persisted[n]];
        assert r[..|r| - 1] == r0;
      }
    }
  }

  lemma {:induction false} SubsequenceOfPrefix<T>(xs: seq<T>, ys: seq<T>)
    requires ys != []
    requires IsSubsequence(xs, ys[..|ys| - 1])
    ensures IsSubsequence(xs, ys)
  {
  }

  /** With no configured site every persisted site is removed. */
  lemma {:induction false} EmptyConfigRemovesAll(persisted: seq<SiteRecord>)
    ensures RemovalCandidates(persisted, []) == persisted
    decreases |persisted|
  {
    if persisted != [] {
      var n := |persisted| - 1;
      EmptyConfigRemovesAll(persisted[..n]);
      assert persisted == persisted[..n] + [persisted[n]];
    }
  }

  /** Configured sites whose names are not persisted do not change the removal list. */
  lemma {:induction false} UnpersistedConfigIrrelevant(persisted: seq<SiteRecord>, configured: seq<SiteConfig>, extra: seq<SiteConfig>)
    requires forall c, s :: c in extra && s in persisted ==> c.name != s.name
    ensures RemovalCandidates(persisted, configured + extra) == RemovalCandidates(persisted, configured)
    decreases |persisted|
  {
    if persisted != [] {
      var n := |persisted| - 1;
      var last := persisted[n];
      assert forall s :: s in persisted[..n] ==> s in persisted;
      UnpersistedConfigIrrelevant(persisted[..n], configured, extra);
      assert last in persisted;
      assert Configured(configured + extra, last.name) <==> Configured(configured, last.name) by {
        if Configured(configured + extra, last.name) {
          var c :| c in configured + extra && c.name == last.name;
          assert c !in extra;
        }
        if Configured(configured, last.name) {
          var c :| c in configured && c.name == last.name;
          assert c in configured + extra;
        }
      }
    }
  }

  /** What a command did, in order: printed lines and store calls. */
  datatype Effect = Print(line: string) | DeleteSites(sites: seq<SiteRecord>) | Vacuum

  datatype CommandResult = CommandResult(effects: seq<Effect>, outcome: Outcome)

  /** The dry-run report line for one site. */
  function DeletingLine(name: string): string
  {
    "Deleting " + name + "\n"
  }

  function DeletingLines(remove: seq<SiteRecord>): (r: seq<Effect>)
    ensures |r| == |remove|
    ensures forall k :: 0 <= k < |r| ==> r[k] == Print(DeletingLine(remove[k].name))
  {
    if remove == [] then [] else [Print(DeletingLine(remove[0].name))] + DeletingLines(remove[1..])
  }

  /**
   `gcCmd.Execute` after the configuration is read: open the database, read
   the persisted sites, select the removals, then report (dry run) or delete
   and vacuum.
   */
  function GcExecute(openFault: Option<Error>, persisted: Result<seq<SiteRecord>>, configured: seq<SiteConfig>,
                     dryRun: bool, deleteFault: Option<Error>, vacuumFault: Option<Error>): (r: CommandResult)
    // an unavailable database or site list stops the command before any effect
    ensures openFault.Some? ==> r == CommandResult([], Fail(openFault.value))
    ensures openFault.None? && persisted.Err? ==> r == CommandResult([], Fail(persisted.error))
    // a dry run only prints, one line per candidate in order, and succeeds
    ensures dryRun ==> forall k :: 0 <= k < |r.effects| ==> r.effects[k].Print?
    ensures openFault.None? && persisted.Ok? && dryRun ==>
      var remove := RemovalCandidates(persisted.value, configured);
      && r.outcome == Pass
      && |r.effects| == |remove|
      && forall k :: 0 <= k < |remove| ==> r.effects[k] == Print(DeletingLine(remove[k].name))
    // otherwise the candidates go to DeleteSites, and Vacuum runs only after a successful delete
    ensures openFault.None? && persisted.Ok? && !dryRun ==>
      && r.effects == [DeleteSites(RemovalCandidates(persisted.value, configured))]
                      + (if deleteFault.None? then [Vacuum] else [])
      && (deleteFault.Some? ==> r.outcome == Fail(deleteFault.value))
      && (deleteFault.None? && vacuumFault.Some? ==> r.outcome == Fail(vacuumFault.value))
      && (r.outcome.Pass? <==> deleteFault.None? && vacuumFault.None?)
  {
    if openFault.Some? then CommandResult([], Fail(openFault.value))
    else
      match persisted
      case Err(e) => CommandResult([], Fail(e))
      case Ok(sites) =>
        var remove := RemovalCandidates(sites, configured);
        if dryRun then CommandResult(DeletingLines(remove), Pass)
        else if deleteFault.Some? then CommandResult([DeleteSites(remove)], Fail(deleteFault.value))
        else CommandResult([DeleteSites(remove), Vacuum], if vacuumFault.Some? then Fail(vacuumFault.value) else Pass)
  }

  /** The effect of the store calls on the snapshot store: deleting a site drops its rows with it. */
  function ApplyEffects(s: Snapshot, effects: seq<Effect>): Snapshot
  {
    if effects == [] then s
    else
      var next := match effects[0]
        case DeleteSites(sites) => map n | n in s && (forall t :: t in sites ==> t.name != n) :: s[n]
        case _ => s;
      ApplyEffects(next, effects[1..])
  }

  /** The persisted-site list names exactly the sites in the store. */
  ghost predicate ListsStore(persisted: seq<SiteRecord>, s: Snapshot)
  {
    forall n :: n in s <==> exists t :: t in persisted && t.name == n
  }

  /**
   A successful non-dry gc leaves exactly the configured sites of the store,
   each with its rows untouched; the sites it drops take their rows with them.
   */
  lemma GcKeepsExactlyConfigured(persisted: seq<SiteRecord>, configured: seq<SiteConfig>, s: Snapshot,
                                 vacuumFault: Option<Error>)
    requires ListsStore(persisted, s)
    ensures var r := GcExecute(None, Ok(persisted), configured, false, None, vacuumFault);
      var after := ApplyEffects(s, r.effects);
      && (forall n :: n in after <==> n in s && Configured(configured, n))
      && (forall n :: n in after ==> after[n] == s[n])
  {
    var remove := RemovalCandidates(persisted, configured);
    var r := GcExecute(None, Ok(persisted), configured, false, None, vacuumFault);
    assert r.effects == [DeleteSites(remove), Vacuum];
    var next := map n | n in s && (forall t :: t in remove ==> t.name != n) :: s[n];
    assert ApplyEffects(s, r.effects) == ApplyEffects(next, [Vacuum]);
    assert ApplyEffects(next, [Vacuum]) == next;
    forall n
      ensures n in next <==> n in s && Configured(configured, n)
    {
      if n in s {
        var t :| t in persisted && t.name == n;
        RemovalMembership(persisted, configured, t);
        if Configured(configured, n) {
          forall u | u in remove
            ensures u.name != n
          {
            RemovalMembership(persisted, configured, u);
          }
        }
      }
    }
  }

  // ---------------------------------------------------------------- update

  /** The collaborators `updateCmd.Execute` reaches for each site. */
  datatype Env = Env(
    dial: SiteConfig -> Option<Error>,                // ftp.DialTimeout
    loginTls: SiteConfig -> Option<Error>,            // LoginWithTLS
    login: SiteConfig -> Option<Error>,               // Login
    stat: SiteConfig -> Path -> Result<string>,       // the session's Stat
    parse: (Path, string) -> Result<seq<File>>,       // ftp.ParseFiles
    bound: SiteConfig -> nat,                         // depth of the site's finite tree
    deleteFault: string -> Option<Error>,             // DeleteDirs outcome per site
    siteFault: string -> Option<Error>,               // Insert fails before the site row exists
    insertFault: string -> Option<Error>)             // Insert fails after the site row exists

  /** The crawler of one connected site, used as the walk's lister. */
  function SiteLister(env: Env, site: SiteConfig): Lister
  {
    AsLister(env.stat(site), env.parse)
  }

  /** Every site's remote tree is finite, below the depth `env.bound` gives it. */
  ghost predicate EnvBounded(env: Env)
  {
    forall site: SiteConfig :: Bounded(SiteLister(env, site), env.bound(site))
  }

  /** What happened to one configured site. */
  datatype SiteReport =
    | DialFailed(site: string, error: Error)
    | LoginFailed(site: string, tls: bool, error: Error)
    | CrawlFailed(site: string, error: Error)
    | Crawled(site: string)

  datatype SiteStep = SiteStep(report: SiteReport, store: Snapshot)

  /** The login call the loop makes for a site: `LoginWithTLS` when the site asks for TLS, plain `Login` otherwise. */
  function LoginFault(env: Env, site: SiteConfig): Option<Error>
  {
    if site.tls then env.loginTls(site) else env.login(site)
  }

  /** `Crawler.Run` for a connected site. */
  function SiteRun(env: Env, site: SiteConfig, store: Snapshot): RunResult
    requires EnvBounded(env)
  {
    Run(SiteLister(env, site), env.bound(site), site.name, site.root, store,
        env.deleteFault(site.name), env.siteFault(site.name), env.insertFault(site.name))
  }

  /** One iteration of the loop: dial, log in (with TLS if configured), then `Run`. */
  function UpdateSite(env: Env, site: SiteConfig, store: Snapshot): (r: SiteStep)
    requires EnvBounded(env)
    ensures r.report.site == site.name
    ensures env.dial(site).Some? ==> r == SiteStep(DialFailed(site.name, env.dial(site).value), store)
    ensures env.dial(site).None? && LoginFault(env, site).Some? ==>
      r == SiteStep(LoginFailed(site.name, site.tls, LoginFault(env, site).value), store)
    ensures env.dial(site).None? && LoginFault(env, site).None? ==>
      var run := SiteRun(env, site, store);
      && r.store == run.store
      && (r.report.Crawled? <==> run.outcome.Pass?)
      && (run.outcome.Fail? ==> r.report == CrawlFailed(site.name, run.outcome.error))
    ensures !r.report.CrawlFailed? && !r.report.Crawled? ==> r.store == store
    ensures forall o :: o != site.name ==> (o in r.store <==> o in store)
    ensures forall o :: o != site.name && o in store ==> r.store[o] == store[o]
    ensures r.report.Crawled? ==>
      var walk := Walk(SiteLister(env, site), env.bound(site), site.root);
      && walk.Ok?
      && site.name in r.store
      && r.store[site.name] == LeafRows(walk.value)
  {
    if env.dial(site).Some? then SiteStep(DialFailed(site.name, env.dial(site).value), store)
    else
      var loginFault := LoginFault(env, site);
      if loginFault.Some? then SiteStep(LoginFailed(site.name, site.tls, loginFault.value), store)
      else
        var run := SiteRun(env, site, store);
        match run.outcome
        case Fail(e) => SiteStep(CrawlFailed(site.name, e), run.store)
        case Pass => SiteStep(Crawled(site.name), run.store)
  }

  datatype UpdateRun = UpdateRun(reports: seq<SiteReport>, store: Snapshot)

  /** The body of the site loop as a value: what one site's iteration does to the store. */
  type SiteAttempt = (SiteConfig, Snapshot) -> SiteStep

  /**
   The `for _, site := range cfg.Sites` loop around a given body: every site is
   attempted, in order, on the store the earlier ones left, and a failure only
   ends that site's own iteration.
   */
  function EachSite(attempt: SiteAttempt, sites: seq<SiteConfig>, store: Snapshot): (r: UpdateRun)
    ensures |r.reports| == |sites|
    decreases |sites|
  {
    if sites == [] then UpdateRun([], store)
    else
      var step := attempt(sites[0], store);
      var rest := EachSite(attempt, sites[1..], step.store);
      UpdateRun([step.report] + rest.reports, rest.store)
  }

  /** The store the loop hands to `sites[k]`: what the attempts of the first `k` sites leave, one after the other. */
  function StoreBefore(attempt: SiteAttempt, sites: seq<SiteConfig>, store: Snapshot, k: nat): Snapshot
    requires k <= |sites|
    decreases k
  {
    if k == 0 then store
    else StoreBefore(attempt, sites[1..], attempt(sites[0], store).store, k - 1)
  }

  /** Report `k` is the attempt of `sites[k]` on the store the sites before it left. */
  lemma {:induction false} EachSiteInTurn(attempt: SiteAttempt, sites: seq<SiteConfig>, store: Snapshot, k: nat)
    requires k < |sites|
    ensures EachSite(attempt, sites, store).reports[k]
         == attempt(sites[k], StoreBefore(attempt, sites, store, k)).report
    decreases k
  {
    if k > 0 {
      EachSiteInTurn(attempt, sites[1..], attempt(sites[0], store).store, k - 1);
      assert sites[1..][k - 1] == sites[k];
    }
  }

  /** The store after the loop is what all the attempts leave, in order. */
  lemma {:induction false} EachSiteStore(attempt: SiteAttempt, sites: seq<SiteConfig>, store: Snapshot)
    ensures EachSite(attempt, sites, store).store == StoreBefore(attempt, sites, store, |sites|)
    decreases |sites|
  {
    if sites != [] {
      EachSiteStore(attempt, sites[1..], attempt(sites[0], store).store);
    }
  }

  /** The iteration body of `updateCmd.Execute`. */
  function UpdateAttempt(env: Env): SiteAttempt
    requires EnvBounded(env)
  {
    (site, store) => UpdateSite(env, site, store)
  }

  /**
   The loop over all configured sites: a failing site is reported and the loop
   moves on, so each site's report is its own attempt on the store the sites
   before it left, and the final store is the one all attempts leave in turn.
   */
  function UpdateSites(env: Env, sites: seq<SiteConfig>, store: Snapshot): (r: UpdateRun)
    requires EnvBounded(env)
    ensures |r.reports| == |sites|
    ensures forall k :: 0 <= k < |sites| ==>
      r.reports[k] == UpdateSite(env, sites[k], StoreBefore(UpdateAttempt(env), sites, store, k)).report
    ensures forall k :: 0 <= k < |sites| ==> r.reports[k].site == sites[k].name
    ensures r.store == StoreBefore(UpdateAttempt(env), sites, store, |sites|)
  {
    var r := EachSite(UpdateAttempt(env), sites, store);
    assert forall k :: 0 <= k < |sites| ==>
      r.reports[k] == UpdateSite(env, sites[k], StoreBefore(UpdateAttempt(env), sites, store, k)).report by {
      forall k | 0 <= k < |sites| {
        EachSiteInTurn(UpdateAttempt(env), sites, store, k);
      }
    }
    EachSiteStore(UpdateAttempt(env), sites, store);
    r
  }

  /** `updateCmd.Execute` after the configuration is read: only opening the database can fail it. */
  function UpdateExecute(openFault: Option<Error>, env: Env, sites: seq<SiteConfig>, store: Snapshot): (r: (Outcome, UpdateRun))
    requires EnvBounded(env)
    ensures r.0.Pass? <==> openFault.None?
    ensures openFault.Some? ==> r.0 == Fail(openFault.value)
    ensures openFault.Some? ==> r.1 == UpdateRun([], store)
    ensures openFault.None? ==>
      && |r.1.reports| == |sites|
      && (forall k :: 0 <= k < |sites| ==>
            r.1.reports[k] == UpdateSite(env, sites[k], StoreBefore(UpdateAttempt(env), sites, store, k)).report)
      && r.1.store == StoreBefore(UpdateAttempt(env), sites, store, |sites|)
  {
    if openFault.Some? then (Fail(openFault.value), UpdateRun([], store))
    else (Pass, UpdateSites(env, sites, store))
  }

  /**
   Whatever the sites before it did, each configured site gets a report under
   its own name, and that report says how far its own attempt got: dialling,
   logging in, or crawling.
   */
  lemma UpdateReportsFollowSites(env: Env, sites: seq<SiteConfig>, store: Snapshot, k: nat)
    requires EnvBounded(env)
    requires k < |sites|
    ensures var report := UpdateSites(env, sites, store).reports[k];
      && report.site == sites[k].name
      && (report.DialFailed? <==> env.dial(sites[k]).Some?)
      && (report.DialFailed? ==> report.error == env.dial(sites[k]).value)
      && (report.LoginFailed? <==> env.dial(sites[k]).None? && LoginFault(env, sites[k]).Some?)
      && (report.LoginFailed? ==> report.tls == sites[k].tls && report.error == LoginFault(env, sites[k]).value)
      && (report.Crawled? || report.CrawlFailed? <==> env.dial(sites[k]).None? && LoginFault(env, sites[k]).None?)
  {
    var before := StoreBefore(UpdateAttempt(env), sites, store, k);
    assert UpdateSites(env, sites, store).reports[k] == UpdateSite(env, sites[k], before).report;
  }

  /** Sites that are not configured keep their rows through an update. */
  lemma {:induction false} UpdateLeavesOtherSites(env: Env, sites: seq<SiteConfig>, store: Snapshot, o: string)
    requires EnvBounded(env)
    requires forall k :: 0 <= k < |sites| ==> sites[k].name != o
    ensures var after := UpdateSites(env, sites, store).store;
      (o in after <==> o in store) && (o in store ==> after[o] == store[o])
    decreases |sites|
  {
    if sites != [] {
      var first := UpdateSite(env, sites[0], store).store;
      assert UpdateAttempt(env)(sites[0], store).store == first;
      UpdateLeavesOtherSites(env, sites[1..], first, o);
    }
  }

  /** When no configured site can be dialled, an update changes nothing in the store. */
  lemma {:induction false} UnreachableSitesChangeNothing(env: Env, sites: seq<SiteConfig>, store: Snapshot)
    requires EnvBounded(env)
    requires forall k :: 0 <= k < |sites| ==> env.dial(sites[k]).Some?
    ensures UpdateSites(env, sites, store).store == store
    ensures forall k :: 0 <= k < |sites| ==> UpdateSites(env, sites, store).reports[k].DialFailed?
    decreases |sites|
  {
    if sites != [] {
      assert UpdateAttempt(env)(sites[0], store).store == store;
      UnreachableSitesChangeNothing(env, sites[1..], store);
    }
  }
}

=== FILE: crawler.dfy ===
/**
 `Crawler.Run` of crawler/crawler.go: walk the site's root, reduce the walk to
 leaf rows, then delete the site's old rows and insert the new ones, stopping
 at the first error. The store's own failures are parameters: `siteFault` is a
 failure of `Insert`'s first site lookup or of its insert of a missing site,
 before the site row exists; `insertFault` is any failure after the site row
 exists: the second lookup, opening the row transaction, a row insert or the
 commit.
 */
module Crawler {
  import opened Results
  import opened Paths
  import opened Entries
  import opened Leaves
  import opened Walker
  import opened Store

  datatype RunResult = RunResult(outcome: Outcome, store: Snapshot)

  function Run(lister: Lister, bound: nat, site: string, root: Path, store: Snapshot,
               deleteFault: Option<Error>, siteFault: Option<Error>, insertFault: Option<Error>): (r: RunResult)
    requires Bounded(lister, bound)
    // other sites are never touched
    ensures forall o :: o != site ==> (o in r.store <==> o in store)
    ensures forall o :: o != site && o in store ==> r.store[o] == store[o]
    // a failed walk performs no store operation
    ensures Walk(lister, bound, root).Err? ==> r == RunResult(Fail(Walk(lister, bound, root).error), store)
    // a failed delete skips the insert
    ensures Walk(lister, bound, root).Ok? && deleteFault.Some? ==> r == RunResult(Fail(deleteFault.value), store)
    // a failure before the site row exists leaves the site's rows deleted and creates no site
    ensures Walk(lister, bound, root).Ok? && deleteFault.None? && siteFault.Some? ==>
      && r.outcome == Fail(siteFault.value)
      && RowsOf(r.store, site) == []
      && (site in r.store <==> site in store)
    // a failure once the site row exists leaves the site, created if it was missing, with no rows
    ensures Walk(lister, bound, root).Ok? && deleteFault.None? && siteFault.None? && insertFault.Some? ==>
      && r.outcome == Fail(insertFault.value)
      && site in r.store
      && r.store[site] == []
    // success: the site's rows are exactly the leaf rows of the walk
    ensures r.outcome.Pass? <==>
      Walk(lister, bound, root).Ok? && deleteFault.None? && siteFault.None? && insertFault.None?
    ensures r.outcome.Pass? ==> site in r.store && r.store[site] == LeafRows(Walk(lister, bound, root).value)
  {
    match Walk(lister, bound, root)
    case Err(e) => RunResult(Fail(e), store)
    case Ok(files) =>
      var dirs := LeafRows(files);
      if deleteFault.Some? then RunResult(Fail(deleteFault.value), store)
      else
        var cleared := DeleteDirs(store, site);
        if siteFault.Some? then RunResult(Fail(siteFault.value), cleared)
        else if insertFault.Some? then RunResult(Fail(insertFault.value), EnsureSite(cleared, site))
        else
          ReplaceLeavesExactlyNewRows(store, site, dirs);
          RunResult(Pass, Insert(cleared, site, dirs))
  }

  /**
   After a successful run, every stored row of the site comes from an entry
   listed at or below the root that is either a directory or part of the
   root's own listing, and no stored row is the parent of another.
   */
  lemma RunStoresListedLeaves(lister: Lister, bound: nat, site: string, root: Path, store: Snapshot, row: DirRow, other: DirRow)
    requires Bounded(lister, bound)
    requires Run(lister, bound, site, root, store, None, None, None).outcome.Pass?
    requires row in Run(lister, bound, site, root, store, None, None, None).store[site]
    requires other in Run(lister, bound, site, root, store, None, None, None).store[site]
    ensures exists f :: row == Row(f) && ListedBelow(lister, root, f) && (IsDir(f) || f in lister(root).value)
    ensures Dir(other.path) != row.path
  {
    var walked := Walk(lister, bound, root).value;
    assert row in LeafRows(walked) && other in LeafRows(walked);
    NoParentChild(walked, row, other);
    LeafRowsMembership(walked, row);
    var f :| f in walked && Kept(walked, f) && row == Row(f);
    var k :| 0 <= k < |walked| && walked[k] == f;
    WalkShallowSound(lister, bound, root, -1);
    WalkShallowAppendsDirectories(lister, bound, root, -1);
    var listing := lister(root).value;
    assert ListedBelow(lister, root, walked[k]);
    if k < |listing| {
      assert walked[..|listing|][k] == f;
    } else {
      assert walked[|listing|..][k - |listing|] == f;
    }
  }
}

=== FILE: entries.dfy ===
/**
 The listing entries the remote server reports (Go's `ftp.File`) and the
 directory rows the crawler persists (Go's `database.Dir`).
 */
module Entries {
  import opened Paths

  /** The part of a file mode the crawler looks at. `Other` covers symlinks and special files. */
  datatype Kind = Directory | Regular | Other

  /** One listed entry; `modified` is the Unix time of the reported modification time. */
  datatype File = File(name: string, path: Path, kind: Kind, modified: int)

  /** A persisted directory row. */
  datatype DirRow = DirRow(name: string, path: Path, modified: int)

  /** The self and parent markers `.` and `..`. */
  predicate IsCurrentOrParent(f: File)
  {
    f.name == "." || f.name == ".."
  }

  predicate IsDir(f: File)
  {
    f.kind == Directory
  }

  /** The row `makeDirs` builds from an entry: name, path and time copied, kind dropped. */
  function Row(f: File): DirRow
  {
    DirRow(f.name, f.path, f.modified)
  }
}

=== FILE: leaves.dfy ===
/**
 The leaf filter of crawler/crawler.go (`makeDirs`): drop `.` and `..`, drop
 every entry that is the parent (`filepath.Dir`) of some entry, and keep the
 rest, in order, as directory rows. The entry kind is never consulted.
 */
module Leaves {
  import opened Paths
  import opened Entries

  /** Some entry of `files` has `p` as its parent path. */
  predicate HasChild(files: seq<File>, p: Path)
  {
    exists g :: g in files && Dir(g.path) == p
  }

  /** `makeDirs` keeps `f` when it is neither `.`/`..` nor the parent of any entry. */
  predicate Kept(files: seq<File>, f: File)
  {
    !IsCurrentOrParent(f) && !HasChild(files, f.path)
  }

  /** The rows of the kept entries among `prefix`, judged against all of `files`, in order. */
  function Select(files: seq<File>, prefix: seq<File>): seq<DirRow>
    decreases |prefix|
  {
    if prefix == [] then []
    else
      var last := prefix[|prefix| - 1];
      Select(files, prefix[..|prefix| - 1]) + (if Kept(files, last) then [Row(last)] else [])
  }

  /** Selecting from one more entry appends that entry's row when it is kept. */
  lemma SelectSnoc(files: seq<File>, prefix: seq<File>, f: File)
    ensures Select(files, prefix + [f]) == Select(files, prefix) + (if Kept(files, f) then [Row(f)] else [])
  {
    assert (prefix + [f])[..|prefix|] == prefix;
  }

  /** The result of `makeDirs(files)`. */
  function LeafRows(files: seq<File>): seq<DirRow>
  {
    Select(files, files)
  }

  /** The positions of the kept entries among `prefix`, ascending. */
  ghost function KeptIndices(files: seq<File>, prefix: seq<File>): seq<nat>
    decreases |prefix|
  {
    if prefix == [] then []
    else
      var n := |prefix| - 1;
      KeptIndices(files, prefix[..n]) + (if Kept(files, prefix[n]) then [n] else [])
  }

  ghost predicate StrictlyIncreasing(xs: seq<nat>)
  {
    forall a, b :: 0 <= a < b < |xs| ==> xs[a] < xs[b]
  }

  /** Every kept position lies inside `prefix`, and the positions ascend. */
  lemma {:induction false} KeptIndicesAscend(files: seq<File>, prefix: seq<File>)
    ensures var idx := KeptIndices(files, prefix);
      (forall k :: 0 <= k < |idx| ==> idx[k] < |prefix|) && StrictlyIncreasing(idx)
    decreases |prefix|
  {
    if prefix != [] {
      KeptIndicesAscend(files, prefix[..|prefix| - 1]);
    }
  }

  /** A position is kept iff its entry is. */
  lemma {:induction false} KeptIndicesExact(files: seq<File>, prefix: seq<File>, i: nat)
    requires i < |prefix|
    ensures i in KeptIndices(files, prefix) <==> Kept(files, prefix[i])
    decreases |prefix|
  {
    var n := |prefix| - 1;
    KeptIndicesAscend(files, prefix[..n]);
    if i < n {
      KeptIndicesExact(files, prefix[..n], i);
      assert prefix[..n][i] == prefix[i];
    }
  }

  /** The k-th selected row is the row of the entry at the k-th kept position. */
  lemma {:induction false} SelectAtIndices(files: seq<File>, prefix: seq<File>)
    ensures var idx := KeptIndices(files, prefix);
      && |Select(files, prefix)| == |idx|
      && forall k :: 0 <= k < |idx| ==> idx[k] < |prefix| && Select(files, prefix)[k] == Row(prefix[idx[k]])
    decreases |prefix|
  {
    KeptIndicesAscend(files, prefix);
    if prefix != [] {
      var n := |prefix| - 1;
      var init := prefix[..n];
      SelectAtIndices(files, init);
      KeptIndicesAscend(files, init);
      var idx0 := KeptIndices(files, init);
      forall k | 0 <= k < |idx0|
        ensures Select(files, prefix)[k] == Row(prefix[idx0[k]])
      {
        assert init[idx0[k]] == prefix[idx0[k]];
      }
    }
  }

  /** The leaf rows are the rows of the kept input entries, in input order. */
  lemma LeafRowsAreKeptInOrder(files: seq<File>)
    ensures var idx := KeptIndices(files, files);
      && |LeafRows(files)| == |idx|
      && StrictlyIncreasing(idx)
      && (forall k :: 0 <= k < |idx| ==> idx[k] < |files| && LeafRows(files)[k] == Row(files[idx[k]]))
      && (forall i :: 0 <= i < |files| ==> (i in idx <==> Kept(files, files[i])))
  {
    KeptIndicesAscend(files, files);
    SelectAtIndices(files, files);
    forall i | 0 <= i < |files|
      ensures i in KeptIndices(files, files) <==> Kept(files, files[i])
    {
      KeptIndicesExact(files, files, i);
    }
  }

  /** A row is produced iff it is the row of some kept entry. */
  lemma {:induction false} SelectMembership(files: seq<File>, prefix: seq<File>, r: DirRow)
    ensures r in Select(files, prefix) <==> exists f :: f in prefix && Kept(files, f) && r == Row(f)
    decreases |prefix|
  {
    if prefix != [] {
      var n := |prefix| - 1;
      SelectMembership(files, prefix[..n], r);
      assert prefix == prefix[..n] + [prefix[n]];
    }
  }

  /** Membership in the result of `makeDirs`: both directions. */
  lemma LeafRowsMembership(files: seq<File>, r: DirRow)
    ensures r in LeafRows(files) <==> exists f :: f in files && Kept(files, f) && r == Row(f)
  {
    SelectMembership(files, files, r);
  }

  /** No two result rows stand in a direct parent/child relation (a row is not its own parent either). */
  lemma NoParentChild(files: seq<File>, a: DirRow, b: DirRow)
    requires a in LeafRows(files) && b in LeafRows(files)
    ensures Dir(b.path) != a.path
  {
    LeafRowsMembership(files, a);
    LeafRowsMembership(files, b);
    var fa :| fa in files && Kept(files, fa) && a == Row(fa);
    var fb :| fb in files && Kept(files, fb) && b == Row(fb);
    assert Dir(fb.path) == fa.path ==> HasChild(files, fa.path);
  }

  /** An entry whose path has no listed child is kept whatever its kind, unless it is `.` or `..`. */
  lemma ChildlessEntryKept(files: seq<File>, f: File)
    requires f in files && !IsCurrentOrParent(f)
    requires forall g :: g in files ==> Dir(g.path) != f.path
    ensures Row(f) in LeafRows(files)
  {
    LeafRowsMembership(files, Row(f));
  }

  /** Two listings that differ only in the kinds of their entries. */
  predicate SameButKind(xs: seq<File>, ys: seq<File>)
  {
    |xs| == |ys| &&
    forall i :: 0 <= i < |xs| ==> xs[i].name == ys[i].name && xs[i].path == ys[i].path && xs[i].modified == ys[i].modified
  }

  lemma {:induction false} SelectIgnoresKind(xs: seq<File>, ys: seq<File>, px: seq<File>, py: seq<File>)
    requires SameButKind(xs, ys) && SameButKind(px, py)
    ensures Select(xs, px) == Select(ys, py)
    decreases |px|
  {
    if px != [] {
      var n := |px| - 1;
      SelectIgnoresKind(xs, ys, px[..n], py[..n]);
      forall p: Path
        ensures HasChild(xs, p) <==> HasChild(ys, p)
      {
        if HasChild(xs, p) {
          var g :| g in xs && Dir(g.path) == p;
          var i :| 0 <= i < |xs| && xs[i] == g;
          assert ys[i] in ys;
        }
        if HasChild(ys, p) {
          var g :| g in ys && Dir(g.path) == p;
          var i :| 0 <= i < |ys| && ys[i] == g;
          assert xs[i] in xs;
        }
      }
      assert Kept(xs, px[n]) <==> Kept(ys, py[n]);
    }
  }

  /** `makeDirs` never consults the entry kind. */
  lemma LeafRowsIgnoreKind(xs: seq<File>, ys: seq<File>)
    requires SameButKind(xs, ys)
    ensures LeafRows(xs) == LeafRows(ys)
  {
    SelectIgnoresKind(xs, ys, xs, ys);
  }

  /**
   `makeDirs` as written: for each entry, skip `.`/`..`, then scan every entry
   for one whose parent is this entry's path, and append the row otherwise.
   */
  method MakeDirs(files: seq<File>) returns (keep: seq<DirRow>)
    ensures keep == LeafRows(files)
    ensures files == [] ==> keep == []
    ensures |keep| <= |files|
  {
    keep := [];
    var i := 0;
    while i < |files|
      invariant 0 <= i <= |files|
      invariant keep == Select(files, files[..i])
      invariant |keep| <= i
    {
      var f1 := files[i];
      assert files[..i + 1][..i] == files[..i];
      if !IsCurrentOrParent(f1) {
        var parent := false;
        var j := 0;
        while j < |files| && !parent
          invariant 0 <= j <= |files|
          invariant parent <==> exists k :: 0 <= k < j && Dir(files[k].path) == f1.path
        {
          if Dir(files[j].path) == f1.path {
            parent := true;
          }
          j := j + 1;
        }
        assert parent <==> HasChild(files, f1.path);
        if !parent {
          keep := keep + [Row(f1)];
        }
      }
      i := i + 1;
    }
    assert files[..|files|] == files;
  }
}

=== FILE: paths.dfy ===
/**
 Slash-separated absolute paths as sequences of segments. The empty sequence
 is the root `/`. Go's `filepath.Join(p, name)` becomes appending one segment,
 `filepath.Dir` drops the last one, and `strings.Count(p, "/")` on an absolute
 path other than `/` is the number of segments.
 */
module Paths {

  type Path = seq<string>

  /** `filepath.Join(p, name)` for a single-segment `name`. */
  function Join(p: Path, name: string): (r: Path)
    ensures |r| == |p| + 1
    ensures r[..|p|] == p && r[|p|] == name
  {
    p + [name]
  }

  /** `filepath.Dir(p)`; the root is its own parent, as `filepath.Dir("/") == "/"`. */
  function Dir(p: Path): (r: Path)
    ensures p == [] ==> r == []
    ensures p != [] ==> |r| == |p| - 1 && r == p[..|p| - 1]
  {
    if p == [] then [] else p[..|p| - 1]
  }

  /** `strings.Count(p, "/")` for an absolute path other than `/` (which has one slash and no segment). */
  function Depth(p: Path): nat
  {
    |p|
  }

  /** `q` lies at or below `p`. */
  predicate IsPrefix(p: Path, q: Path)
  {
    |p| <= |q| && q[..|p|] == p
  }

  lemma PrefixTransitive(p: Path, q: Path, s: Path)
    requires IsPrefix(p, q) && IsPrefix(q, s)
    ensures IsPrefix(p, s)
  {
    assert s[..|p|] == s[..|q|][..|p|];
  }
}

=== FILE: results.dfy ===
/** Error-carrying results, standing in for Go's `(value, error)` returns. */
module Results {

  /** A Go `error` is modelled by its message. */
  type Error = string

  /** `(T, error)`: either a value or the error that replaced it. */
  datatype Result<+T> = Ok(value: T) | Err(error: Error)

  /** A bare `error` return: nil or an error. */
  datatype Outcome = Pass | Fail(error: Error)

  /** An optional fault injected by an abstract collaborator (store, network). */
  datatype Option<+T> = None | Some(value: T)
}

=== FILE: scenarios.dfy ===
/**
 Concrete walks, leaf sets and garbage collections on small trees and site
 lists. Each walk is stated for any lister that answers as described on the
 paths that matter.
 */
module Scenarios {
  import opened Results
  import opened Paths
  import opened Entries
  import opened Leaves
  import opened Walker
  import opened Commands

  function D(parent: Path, name: string): File { File(name, Join(parent, name), Directory, 0) }
  function F(parent: Path, name: string): File { File(name, Join(parent, name), Regular, 0) }

  /** An empty directory is walked to its (empty) listing. */
  lemma EmptyDirectoryWalk(lister: Lister, bound: nat, p: Path, maxdepth: int)
    requires Bounded(lister, bound) && lister(p) == Ok([])
    ensures WalkShallow(lister, bound, p, maxdepth) == Ok([])
  {
    assert WalkEntries(lister, bound, p, [], 0, maxdepth) == Ok([]);
    WalkShallowStep(lister, bound, p, maxdepth, [], []);
  }

  /** `/root` holds `a` (directories `x`, `y`, both empty) and `b` (a file `f`). */
  ghost predicate RootTree(lister: Lister)
  {
    && lister(["root"]) == Ok([D(["root"], "a"), D(["root"], "b")])
    && lister(["root", "a"]) == Ok([D(["root", "a"], "x"), D(["root", "a"], "y")])
    && lister(["root", "b"]) == Ok([F(["root", "b"], "f")])
    && lister(["root", "a", "x"]) == Ok([])
    && lister(["root", "a", "y"]) == Ok([])
  }

  /** `/root/a` holds only directories: it is walked, and so are both its children. */
  lemma RootTreeWalkA(lister: Lister, bound: nat)
    requires Bounded(lister, bound) && RootTree(lister)
    ensures WalkShallow(lister, bound, ["root", "a"], -1) == Ok([D(["root", "a"], "x"), D(["root", "a"], "y")])
  {
    var a: Path := ["root", "a"];
    var files := [D(a, "x"), D(a, "y")];
    assert Join(a, "x") == ["root", "a", "x"] && Join(a, "y") == ["root", "a", "y"];
    EmptyDirectoryWalk(lister, bound, Join(a, "x"), -1);
    EmptyDirectoryWalk(lister, bound, Join(a, "y"), -1);
    assert |a| < bound by {
      assert Descendable(files[0]);
    }
    assert WalkEntries(lister, bound, a, files, 2, -1) == Ok([]);
    WalkEntriesDescend(lister, bound, a, files, 1, -1, [], [], []);
    WalkEntriesDescend(lister, bound, a, files, 0, -1, [], [], []);
    WalkShallowStep(lister, bound, a, -1, files, []);
    assert files + [] == files;
  }

  /**
   The walk lists `/root` and `/root/a`, peeks at `/root/b` without adding
   its file or descending, and descends into `/root/a/x` and `/root/a/y`.
   */
  lemma RootTreeWalk(lister: Lister, bound: nat)
    requires Bounded(lister, bound) && RootTree(lister)
    ensures Walk(lister, bound, ["root"]) == Ok([D(["root"], "a"), D(["root"], "b"), D(["root", "a"], "x"), D(["root", "a"], "y")])
  {
    RootTreeWalkA(lister, bound);
    var root: Path := ["root"];
    var a: Path := ["root", "a"];
    var files := [D(root, "a"), D(root, "b")];
    var sub := [D(a, "x"), D(a, "y")];
    assert |root| < bound by {
      assert Descendable(files[0]);
    }
    var peekB := [F(["root", "b"], "f")];
    assert Join(root, "a") == a && Join(root, "b") == ["root", "b"];
    assert !IsDir(peekB[0]);
    assert WalkEntries(lister, bound, root, files, 2, 1) == Ok([]);
    WalkEntriesContent(lister, bound, root, files, 1, -1, peekB);
    WalkEntriesDescend(lister, bound, root, files, 0, -1, sub, sub, []);
    WalkShallowStep(lister, bound, root, -1, files, sub + []);
    assert files + (sub + []) == [D(root, "a"), D(root, "b"), D(a, "x"), D(a, "y")];
  }

  /** The entries of that walk: `a`, `b`, `a/x`, `a/y`. */
  function RootTreeWalked(): seq<File>
  {
    [D(["root"], "a"), D(["root"], "b"), D(["root", "a"], "x"), D(["root", "a"], "y")]
  }

  /** Only `a` has a child among them: the parents of the walked paths are `/root` and `/root/a`. */
  lemma RootTreeParents(g: File)
    requires g in RootTreeWalked()
    ensures Dir(g.path) == ["root"] || Dir(g.path) == ["root", "a"]
  {
  }

  /** Only `a` is the parent of a walked entry. */
  lemma RootTreeKept()
    ensures var walked := RootTreeWalked();
      !Kept(walked, walked[0]) && Kept(walked, walked[1]) && Kept(walked, walked[2]) && Kept(walked, walked[3])
  {
    var walked := RootTreeWalked();
    assert Dir(walked[2].path) == walked[0].path;
    forall k, g | 1 <= k < 4 && g in walked
      ensures Dir(g.path) != walked[k].path
    {
      RootTreeParents(g);
    }
  }

  /** The leaves of that walk are `b`, `a/x` and `a/y`. */
  lemma RootTreeLeaves()
    ensures var walked := RootTreeWalked();
      LeafRows(walked) == [Row(walked[1]), Row(walked[2]), Row(walked[3])]
  {
    var walked := RootTreeWalked();
    RootTreeKept();
    var p1 := [walked[0]];
    var p2 := p1 + [walked[1]];
    var p3 := p2 + [walked[2]];
    assert walked == p3 + [walked[3]];
    SelectSnoc(walked, [], walked[0]);
    SelectSnoc(walked, p1, walked[1]);
    SelectSnoc(walked, p2, walked[2]);
    SelectSnoc(walked, p3, walked[3]);
  }

  /**
   Through `Crawler.List`: `Stat` fails on `/root/a/x`, which then counts as
   empty, and its sibling `/root/a/y` is still peeked, walked and included.
   */
  lemma FailingStatDoesNotStopSiblings(stat: Path -> Result<string>, parse: (Path, string) -> Result<seq<File>>, bound: nat)
    requires Bounded(AsLister(stat, parse), bound)
    requires stat(["root"]).Ok? && parse(["root"], stat(["root"]).value) == Ok([D(["root"], "a")])
    requires stat(["root", "a"]).Ok? && parse(["root", "a"], stat(["root", "a"]).value) == Ok([D(["root", "a"], "x"), D(["root", "a"], "y")])
    requires stat(["root", "a", "x"]).Err?
    requires stat(["root", "a", "y"]).Ok? && parse(["root", "a", "y"], stat(["root", "a", "y"]).value) == Ok([])
    ensures Walk(AsLister(stat, parse), bound, ["root"]) == Ok([D(["root"], "a"), D(["root", "a"], "x"), D(["root", "a"], "y")])
  {
    var l := AsLister(stat, parse);
    var root: Path := ["root"];
    var a: Path := ["root", "a"];
    var files := [D(a, "x"), D(a, "y")];
    assert Join(root, "a") == a;
    assert Join(a, "x") == ["root", "a", "x"] && Join(a, "y") == ["root", "a", "y"];
    assert l(Join(a, "x")) == Ok([]);
    assert l(Join(a, "y")) == Ok([]);
    assert l(a) == Ok(files);
    assert l(root) == Ok([D(root, "a")]);
    EmptyDirectoryWalk(l, bound, Join(a, "x"), -1);
    EmptyDirectoryWalk(l, bound, Join(a, "y"), -1);
    assert |a| < bound by {
      assert Descendable(files[0]);
    }
    assert WalkEntries(l, bound, a, files, 2, -1) == Ok([]);
    WalkEntriesDescend(l, bound, a, files, 1, -1, [], [], []);
    WalkEntriesDescend(l, bound, a, files, 0, -1, [], [], []);
    WalkShallowStep(l, bound, a, -1, files, []);
    assert files + [] == files;
    var top := [D(root, "a")];
    assert |root| < bound by {
      assert Descendable(top[0]);
    }
    assert WalkEntries(l, bound, root, top, 1, -1) == Ok([]);
    WalkEntriesDescend(l, bound, root, top, 0, -1, files, files, []);
    WalkShallowStep(l, bound, root, -1, top, files + []);
    assert top + (files + []) == [D(root, "a"), D(a, "x"), D(a, "y")];
  }

  /** Under `root`: `a` holds a file and `b` cannot be listed. */
  ghost predicate SplitTree(lister: Lister, root: Path)
  {
    && lister(root) == Ok([D(root, "a"), D(root, "b")])
    && lister(Join(root, "a")) == Ok([F(Join(root, "a"), "f")])
    && lister(Join(root, "b")) == Err("unreadable")
  }

  /**
   Below the filesystem root the content found in `a` makes `maxdepth` the
   depth of the root, so `b` is never peeked and the walk succeeds.
   */
  lemma ContentLimitsSiblings(lister: Lister, bound: nat)
    requires Bounded(lister, bound) && SplitTree(lister, ["srv"])
    ensures Walk(lister, bound, ["srv"]) == Ok([D(["srv"], "a"), D(["srv"], "b")])
  {
    var srv: Path := ["srv"];
    var files := [D(srv, "a"), D(srv, "b")];
    var peek := [F(Join(srv, "a"), "f")];
    assert !IsDir(peek[0]);
    assert |srv| < bound by {
      assert Descendable(files[0]);
    }
    assert WalkEntries(lister, bound, srv, files, 2, 1) == Ok([]);
    WalkEntriesSkip(lister, bound, srv, files, 1, 1);
    WalkEntriesContent(lister, bound, srv, files, 0, -1, peek);
    WalkShallowStep(lister, bound, srv, -1, files, []);
    assert files + [] == files;
  }

  /**
   Directly under `/` the learned limit is 0, which means unbounded: `b` is
   still peeked and its failure aborts the walk.
   */
  lemma LearnedLimitZeroIsUnbounded(lister: Lister, bound: nat)
    requires Bounded(lister, bound) && SplitTree(lister, [])
    ensures Walk(lister, bound, []) == Err("unreadable")
  {
    var files := [D([], "a"), D([], "b")];
    var peek := [F(Join([], "a"), "f")];
    assert !IsDir(peek[0]);
    assert 0 < bound by {
      assert Descendable(files[0]);
    }
    WalkEntriesPeekFails(lister, bound, [], files, 1, 0, "unreadable");
    WalkEntriesContent(lister, bound, [], files, 0, -1, peek);
  }

  /** Configured `A`, `B`; persisted `A`, `B`, `C`: only `C` is selected, reported or deleted. */
  lemma GcRemovesUnconfiguredSite()
    ensures var persisted := [SiteRecord(1, "A"), SiteRecord(2, "B"), SiteRecord(3, "C")];
      var configured := [SiteConfig("A", "a.example:21", false, []), SiteConfig("B", "b.example:21", true, [])];
      && RemovalCandidates(persisted, configured) == [SiteRecord(3, "C")]
      && GcExecute(None, Ok(persisted), configured, true, None, None) == CommandResult([Print("Deleting C\n")], Pass)
      && GcExecute(None, Ok(persisted), configured, false, None, None) == CommandResult([DeleteSites([SiteRecord(3, "C")]), Vacuum], Pass)
  {
    var persisted := [SiteRecord(1, "A"), SiteRecord(2, "B"), SiteRecord(3, "C")];
    var configured := [SiteConfig("A", "a.example:21", false, []), SiteConfig("B", "b.example:21", true, [])];
    assert Configured(configured, "A") by { assert configured[0] in configured; }
    assert Configured(configured, "B") by { assert configured[1] in configured; }
    assert !Configured(configured, "C");
    assert persisted[..2][..1] == [SiteRecord(1, "A")];
    assert persisted[..2] == [SiteRecord(1, "A"), SiteRecord(2, "B")];
    assert persisted[..2][..1][..0] == [];
    assert RemovalCandidates(persisted[..2][..1], configured) == [];
    assert RemovalCandidates(persisted[..2], configured) == [];
    assert DeletingLine("C") == "Deleting C\n";
  }
}

=== FILE: sequences.dfy ===
/** Order-preserving subsequences. */
module Sequences {

  /** `xs` can be obtained from `ys` by deleting elements, keeping the order of the rest. */
  ghost predicate IsSubsequence<T>(xs: seq<T>, ys: seq<T>)
    decreases |ys|
  {
    if xs == [] then true
    else if ys == [] then false
    else
      (xs[|xs| - 1] == ys[|ys| - 1] && IsSubsequence(xs[..|xs| - 1], ys[..|ys| - 1]))
      || IsSubsequence(xs, ys[..|ys| - 1])
  }
}

=== FILE: store.dfy ===
/**
 An abstract snapshot store: each persisted site name maps to its directory
 rows. A key being present means the site row exists; removing the key drops
 the site together with its rows, as the cascading foreign key does.
 */
module Store {
  import opened Entries

  type Snapshot = map<string, seq<DirRow>>

  /** The rows currently stored for `site` (none when the site is unknown). */
  function RowsOf(s: Snapshot, site: string): seq<DirRow>
  {
    if site in s then s[site] else []
  }

  /** `DeleteDirs(site)`: the site keeps its row but loses all directory rows. */
  function DeleteDirs(s: Snapshot, site: string): (r: Snapshot)
    ensures r.Keys == s.Keys
    ensures RowsOf(r, site) == []
    ensures forall o :: o in s && o != site ==> r[o] == s[o]
  {
    if site in s then s[site := []] else s
  }

  /**
   `getSite`: look the site up and, when it is missing, create it in a
   transaction of its own that is committed before any row is written.
   */
  function EnsureSite(s: Snapshot, site: string): (r: Snapshot)
    ensures r.Keys == s.Keys + {site}
    ensures RowsOf(r, site) == RowsOf(s, site)
    ensures forall o :: o in s && o != site ==> r[o] == s[o]
  {
    if site in s then s else s[site := []]
  }

  /** `Insert(site, dirs)`: create the site on first use, then add one row per dir after the existing ones. */
  function Insert(s: Snapshot, site: string, dirs: seq<DirRow>): (r: Snapshot)
    ensures r.Keys == s.Keys + {site}
    ensures |RowsOf(r, site)| == |RowsOf(s, site)| + |dirs|
    ensures RowsOf(r, site)[..|RowsOf(s, site)|] == RowsOf(s, site)
    ensures RowsOf(r, site)[|RowsOf(s, site)|..] == dirs
    ensures forall o :: o in s && o != site ==> r[o] == s[o]
  {
    var created := EnsureSite(s, site);
    created[site := created[site] + dirs]
  }

  /** Deleting then inserting leaves exactly the new rows for the site and nothing else changed. */
  lemma ReplaceLeavesExactlyNewRows(s: Snapshot, site: string, dirs: seq<DirRow>)
    ensures var r := Insert(DeleteDirs(s, site), site, dirs);
      && r.Keys == s.Keys + {site}
      && r[site] == dirs
      && forall o :: o in s && o != site ==> r[o] == s[o]
  {
    var d := DeleteDirs(s, site);
    var r := Insert(d, site, dirs);
    assert RowsOf(r, site)[0..] == RowsOf(r, site);
  }

  /** Two replacements in a row: no residue of the first snapshot survives the second. */
  lemma ReplaceTwice(s: Snapshot, site: string, first: seq<DirRow>, second: seq<DirRow>)
    ensures Insert(DeleteDirs(Insert(DeleteDirs(s, site), site, first), site), site, second)[site] == second
  {
    ReplaceLeavesExactlyNewRows(Insert(DeleteDirs(s, site), site, first), site, second);
  }
}

=== FILE: walker.dfy ===
/**
 The adaptive walk of crawler/crawler.go (`walkShallow`) and the error-swallowing
 listing of `Crawler.List`.

 The remote tree is reached only through a `Lister`. Termination rests on the
 remote tree being finite, stated as `Bounded`: below some depth no successful
 listing holds a directory the walk could descend into.
 */
module Walker {
  import opened Results
  import opened Paths
  import opened Entries

  /** Go's `dirLister`: list the entries directly under a path, or fail. */
  type Lister = Path -> Result<seq<File>>

  /** The walk peeks at and may descend into exactly these entries. */
  predicate Descendable(f: File)
  {
    !IsCurrentOrParent(f) && IsDir(f)
  }

  predicate NoDescendable(files: seq<File>)
  {
    forall k :: 0 <= k < |files| ==> !Descendable(files[k])
  }

  /** The finite-tree assumption: no listing at depth `bound` or deeper has a subdirectory. */
  ghost predicate Bounded(lister: Lister, bound: nat)
  {
    forall p: Path :: |p| >= bound && lister(p).Ok? ==> NoDescendable(lister(p).value)
  }

  /** A peek that finds any non-directory entry (`.` and `..` included) marks a content directory. */
  predicate HoldsContent(peek: seq<File>)
  {
    exists k :: 0 <= k < |peek| && !IsDir(peek[k])
  }

  /**
   `Crawler.List`: a failing `Stat` becomes an empty, successful listing;
   otherwise the status message is handed to the parser, whose error is kept.
   */
  function CrawlerList(stat: Path -> Result<string>, parse: (Path, string) -> Result<seq<File>>, path: Path): (r: Result<seq<File>>)
    ensures stat(path).Err? ==> r == Ok([])
    ensures stat(path).Ok? ==> r == parse(path, stat(path).value)
    ensures r.Err? ==> stat(path).Ok? && parse(path, stat(path).value) == r
  {
    match stat(path)
    case Err(_) => Ok([])
    case Ok(message) => parse(path, message)
  }

  /** The crawler itself used as a `dirLister`. */
  function AsLister(stat: Path -> Result<string>, parse: (Path, string) -> Result<seq<File>>): Lister
  {
    p => CrawlerList(stat, parse, p)
  }

  /**
   `walkShallow(lister, path, maxdepth)`: the listing of `path` followed by the
   walks of the subdirectories it descends into, in listing order; any failing
   listing, peek or recursive call aborts it with that error.
   */
  function WalkShallow(lister: Lister, bound: nat, path: Path, maxdepth: int): (r: Result<seq<File>>)
    requires Bounded(lister, bound)
    ensures lister(path).Err? ==> r == Err(lister(path).error)
    ensures r.Ok? ==>
      && lister(path).Ok?
      && |lister(path).value| <= |r.value|
      && r.value[..|lister(path).value|] == lister(path).value
    decreases bound - |path|, 1, 0
  {
    match lister(path)
    case Err(e) => Err(e)
    case Ok(files) =>
      match WalkEntries(lister, bound, path, files, 0, maxdepth)
      case Err(e) => Err(e)
      case Ok(more) => Ok(files + more)
  }

  /**
   The loop of `walkShallow` over `files[i..]` with the current `maxdepth`,
   yielding what the remaining iterations append.
   */
  function WalkEntries(lister: Lister, bound: nat, path: Path, files: seq<File>, i: nat, maxdepth: int): Result<seq<File>>
    requires Bounded(lister, bound)
    requires i <= |files|
    requires |path| < bound || NoDescendable(files)
    decreases bound - |path|, 0, |files| - i
  {
    if i == |files| then Ok([])
    else
      var f := files[i];
      if !Descendable(f) then WalkEntries(lister, bound, path, files, i + 1, maxdepth)
      else
        var subpath := Join(path, f.name);
        var depth := Depth(subpath);
        if maxdepth > 0 && depth > maxdepth then WalkEntries(lister, bound, path, files, i + 1, maxdepth)
        else
          match lister(subpath)
          case Err(e) => Err(e)
          case Ok(peek) =>
            if HoldsContent(peek) then WalkEntries(lister, bound, path, files, i + 1, depth - 1)
            else
              match WalkShallow(lister, bound, subpath, maxdepth)
              case Err(e) => Err(e)
              case Ok(sub) =>
                match WalkEntries(lister, bound, path, files, i + 1, maxdepth)
                case Err(e) => Err(e)
                case Ok(rest) => Ok(sub + rest)
  }

  /**
   `Crawler.WalkShallow`: start unbounded, with `maxdepth` -1. Starting from
   -1 is the same walk as starting from the learned limit 0.
   */
  function Walk(lister: Lister, bound: nat, root: Path): (r: Result<seq<File>>)
    requires Bounded(lister, bound)
    ensures r == WalkShallow(lister, bound, root, 0)
  {
    UnboundedLimitsAgree(lister, bound, root, -1, 0);
    WalkShallow(lister, bound, root, -1)
  }

  /** Every `maxdepth <= 0` means "no limit": the walk does not depend on which one. */
  lemma {:induction false} UnboundedLimitsAgree(lister: Lister, bound: nat, path: Path, m: int, n: int)
    requires Bounded(lister, bound)
    requires m <= 0 && n <= 0
    ensures WalkShallow(lister, bound, path, m) == WalkShallow(lister, bound, path, n)
    decreases bound - |path|, 1, 0
  {
    if lister(path).Ok? {
      UnboundedEntriesAgree(lister, bound, path, lister(path).value, 0, m, n);
    }
  }

  lemma {:induction false} UnboundedEntriesAgree(lister: Lister, bound: nat, path: Path, files: seq<File>, i: nat, m: int, n: int)
    requires Bounded(lister, bound)
    requires i <= |files|
    requires |path| < bound || NoDescendable(files)
    requires m <= 0 && n <= 0
    ensures WalkEntries(lister, bound, path, files, i, m) == WalkEntries(lister, bound, path, files, i, n)
    decreases bound - |path|, 0, |files| - i
  {
    if i < |files| {
      var f := files[i];
      if !Descendable(f) {
        UnboundedEntriesAgree(lister, bound, path, files, i + 1, m, n);
      } else {
        var subpath := Join(path, f.name);
        if lister(subpath).Ok? && !HoldsContent(lister(subpath).value) {
          UnboundedLimitsAgree(lister, bound, subpath, m, n);
          UnboundedEntriesAgree(lister, bound, path, files, i + 1, m, n);
        }
      }
    }
  }

  /** Some listing at or below `path` failed with `e`. */
  ghost predicate FailsBelow(lister: Lister, path: Path, e: Error)
  {
    exists q :: IsPrefix(path, q) && lister(q) == Err(e)
  }

  /** Some successful listing at or below `path` holds `f`. */
  ghost predicate ListedBelow(lister: Lister, path: Path, f: File)
  {
    exists q :: IsPrefix(path, q) && lister(q).Ok? && f in lister(q).value
  }

  lemma ListedBelowParent(lister: Lister, path: Path, name: string, f: File)
    requires ListedBelow(lister, Join(path, name), f)
    ensures ListedBelow(lister, path, f)
  {
    var q :| IsPrefix(Join(path, name), q) && lister(q).Ok? && f in lister(q).value;
    PrefixTransitive(path, Join(path, name), q);
  }

  lemma FailsBelowParent(lister: Lister, path: Path, name: string, e: Error)
    requires FailsBelow(lister, Join(path, name), e)
    ensures FailsBelow(lister, path, e)
  {
    var q :| IsPrefix(Join(path, name), q) && lister(q) == Err(e);
    PrefixTransitive(path, Join(path, name), q);
  }

  /** A failed walk reports the error of some listing at or below its root. */
  lemma {:induction false} WalkShallowErrorOrigin(lister: Lister, bound: nat, path: Path, maxdepth: int)
    requires Bounded(lister, bound)
    ensures var r := WalkShallow(lister, bound, path, maxdepth);
      r.Err? ==> FailsBelow(lister, path, r.error)
    decreases bound - |path|, 1, 0
  {
    assert IsPrefix(path, path);
    if lister(path).Ok? {
      WalkEntriesErrorOrigin(lister, bound, path, lister(path).value, 0, maxdepth);
    }
  }

  lemma {:induction false} WalkEntriesErrorOrigin(lister: Lister, bound: nat, path: Path, files: seq<File>, i: nat, maxdepth: int)
    requires Bounded(lister, bound)
    requires i <= |files|
    requires |path| < bound || NoDescendable(files)
    ensures var r := WalkEntries(lister, bound, path, files, i, maxdepth);
      r.Err? ==> FailsBelow(lister, path, r.error)
    decreases bound - |path|, 0, |files| - i
  {
    if i < |files| {
      var f := files[i];
      var subpath := Join(path, f.name);
      var depth := Depth(subpath);
      if !Descendable(f) || (maxdepth > 0 && depth > maxdepth) {
        assert WalkEntries(lister, bound, path, files, i, maxdepth) == WalkEntries(lister, bound, path, files, i + 1, maxdepth);
        WalkEntriesErrorOrigin(lister, bound, path, files, i + 1, maxdepth);
      } else if lister(subpath).Err? {
        assert IsPrefix(path, subpath);
      } else if HoldsContent(lister(subpath).value) {
        WalkEntriesErrorOrigin(lister, bound, path, files, i + 1, depth - 1);
      } else {
        WalkShallowErrorOrigin(lister, bound, subpath, maxdepth);
        WalkEntriesErrorOrigin(lister, bound, path, files, i + 1, maxdepth);
        var sub := WalkShallow(lister, bound, subpath, maxdepth);
        if sub.Err? {
          FailsBelowParent(lister, path, f.name, sub.error);
        }
      }
    }
  }

  /** When every listing at or below the root succeeds, so does the walk. */
  lemma WalkSucceedsWhenListingsDo(lister: Lister, bound: nat, path: Path, maxdepth: int)
    requires Bounded(lister, bound)
    requires forall q :: IsPrefix(path, q) ==> lister(q).Ok?
    ensures WalkShallow(lister, bound, path, maxdepth).Ok?
  {
    WalkShallowErrorOrigin(lister, bound, path, maxdepth);
  }

  /**
   Through `Crawler.List`, a walk fails only with a parse error: a failing
   `Stat` on any directory never aborts the walk.
   */
  lemma CrawlerWalkFailsOnlyOnParse(stat: Path -> Result<string>, parse: (Path, string) -> Result<seq<File>>, bound: nat, root: Path)
    requires Bounded(AsLister(stat, parse), bound)
    ensures var r := Walk(AsLister(stat, parse), bound, root);
      r.Err? ==> exists q :: IsPrefix(root, q) && stat(q).Ok? && parse(q, stat(q).value) == Err(r.error)
  {
    var lister := AsLister(stat, parse);
    WalkShallowErrorOrigin(lister, bound, root, -1);
    var r := Walk(lister, bound, root);
    if r.Err? {
      var q :| IsPrefix(root, q) && lister(q) == Err(r.error);
      assert CrawlerList(stat, parse, q) == Err(r.error);
    }
  }

  /** Every entry of `xs` was listed at or below `path`. */
  ghost predicate AllListedBelow(lister: Lister, path: Path, xs: seq<File>)
  {
    forall k :: 0 <= k < |xs| ==> ListedBelow(lister, path, xs[k])
  }

  predicate AllDirs(xs: seq<File>)
  {
    forall k :: 0 <= k < |xs| ==> IsDir(xs[k])
  }

  lemma ListedBelowConcat(lister: Lister, path: Path, xs: seq<File>, ys: seq<File>)
    requires AllListedBelow(lister, path, xs) && AllListedBelow(lister, path, ys)
    ensures AllListedBelow(lister, path, xs + ys)
  {
    forall k | 0 <= k < |xs + ys|
      ensures ListedBelow(lister, path, (xs + ys)[k])
    {
      if k >= |xs| {
        assert (xs + ys)[k] == ys[k - |xs|];
      }
    }
  }

  lemma AllListedBelowParent(lister: Lister, path: Path, name: string, xs: seq<File>)
    requires AllListedBelow(lister, Join(path, name), xs)
    ensures AllListedBelow(lister, path, xs)
  {
    forall k | 0 <= k < |xs|
      ensures ListedBelow(lister, path, xs[k])
    {
      ListedBelowParent(lister, path, name, xs[k]);
    }
  }

  lemma AllDirsConcat(xs: seq<File>, ys: seq<File>)
    requires AllDirs(xs) && AllDirs(ys)
    ensures AllDirs(xs + ys)
  {
    forall k | 0 <= k < |xs + ys|
      ensures IsDir((xs + ys)[k])
    {
      if k >= |xs| {
        assert (xs + ys)[k] == ys[k - |xs|];
      }
    }
  }

  /** Every entry a successful walk returns was listed at or below its root. */
  lemma {:induction false} WalkShallowSound(lister: Lister, bound: nat, path: Path, maxdepth: int)
    requires Bounded(lister, bound)
    ensures var r := WalkShallow(lister, bound, path, maxdepth);
      r.Ok? ==> AllListedBelow(lister, path, r.value)
    decreases bound - |path|, 1, 0
  {
    if lister(path).Ok? {
      var files := lister(path).value;
      var more := WalkEntries(lister, bound, path, files, 0, maxdepth);
      WalkEntriesSound(lister, bound, path, files, 0, maxdepth);
      if more.Ok? {
        assert IsPrefix(path, path);
        forall k | 0 <= k < |files|
          ensures ListedBelow(lister, path, files[k])
        {
          assert files[k] in lister(path).value;
        }
        ListedBelowConcat(lister, path, files, more.value);
        WalkShallowStep(lister, bound, path, maxdepth, files, more.value);
      }
    }
  }

  lemma {:induction false} WalkEntriesSound(lister: Lister, bound: nat, path: Path, files: seq<File>, i: nat, maxdepth: int)
    requires Bounded(lister, bound)
    requires i <= |files|
    requires |path| < bound || NoDescendable(files)
    ensures var r := WalkEntries(lister, bound, path, files, i, maxdepth);
      r.Ok? ==> AllListedBelow(lister, path, r.value)
    decreases bound - |path|, 0, |files| - i
  {
    if i < |files| {
      var f := files[i];
      var subpath := Join(path, f.name);
      if !Descendable(f) || (maxdepth > 0 && |path| + 1 > maxdepth) {
        WalkEntriesSkip(lister, bound, path, files, i, maxdepth);
        WalkEntriesSound(lister, bound, path, files, i + 1, maxdepth);
      } else if lister(subpath).Err? {
        WalkEntriesPeekFails(lister, bound, path, files, i, maxdepth, lister(subpath).error);
      } else if HoldsContent(lister(subpath).value) {
        WalkEntriesContent(lister, bound, path, files, i, maxdepth, lister(subpath).value);
        WalkEntriesSound(lister, bound, path, files, i + 1, |path|);
      } else {
        WalkShallowSound(lister, bound, subpath, maxdepth);
        WalkEntriesSound(lister, bound, path, files, i + 1, maxdepth);
        var sub := WalkShallow(lister, bound, subpath, maxdepth);
        var rest := WalkEntries(lister, bound, path, files, i + 1, maxdepth);
        if sub.Ok? && rest.Ok? {
          WalkEntriesDescend(lister, bound, path, files, i, maxdepth, lister(subpath).value, sub.value, rest.value);
          AllListedBelowParent(lister, path, f.name, sub.value);
          ListedBelowConcat(lister, path, sub.value, rest.value);
        }
      }
    }
  }

  /**
   What the loop appends consists of directories only: a subdirectory is
   walked only when its peek (its own listing) holds no non-directory.
   */
  lemma {:induction false} WalkEntriesAppendsDirectories(lister: Lister, bound: nat, path: Path, files: seq<File>, i: nat, maxdepth: int)
    requires Bounded(lister, bound)
    requires i <= |files|
    requires |path| < bound || NoDescendable(files)
    ensures var r := WalkEntries(lister, bound, path, files, i, maxdepth);
      r.Ok? ==> AllDirs(r.value)
    decreases bound - |path|, 0, |files| - i
  {
    if i < |files| {
      var f := files[i];
      var subpath := Join(path, f.name);
      if !Descendable(f) || (maxdepth > 0 && |path| + 1 > maxdepth) {
        WalkEntriesSkip(lister, bound, path, files, i, maxdepth);
        WalkEntriesAppendsDirectories(lister, bound, path, files, i + 1, maxdepth);
      } else if lister(subpath).Err? {
        WalkEntriesPeekFails(lister, bound, path, files, i, maxdepth, lister(subpath).error);
      } else if HoldsContent(lister(subpath).value) {
        WalkEntriesContent(lister, bound, path, files, i, maxdepth, lister(subpath).value);
        WalkEntriesAppendsDirectories(lister, bound, path, files, i + 1, |path|);
      } else {
        var peek := lister(subpath).value;
        WalkEntriesAppendsDirectories(lister, bound, subpath, peek, 0, maxdepth);
        WalkEntriesAppendsDirectories(lister, bound, path, files, i + 1, maxdepth);
        var more := WalkEntries(lister, bound, subpath, peek, 0, maxdepth);
        var rest := WalkEntries(lister, bound, path, files, i + 1, maxdepth);
        if more.Ok? && rest.Ok? {
          WalkShallowStep(lister, bound, subpath, maxdepth, peek, more.value);
          AllDirsConcat(peek, more.value);
          WalkEntriesDescend(lister, bound, path, files, i, maxdepth, peek, peek + more.value, rest.value);
          AllDirsConcat(peek + more.value, rest.value);
        }
      }
    }
  }

  /** Beyond the listing of the root itself, a successful walk returns directories only. */
  lemma WalkShallowAppendsDirectories(lister: Lister, bound: nat, path: Path, maxdepth: int)
    requires Bounded(lister, bound)
    ensures var r := WalkShallow(lister, bound, path, maxdepth);
      r.Ok? ==> AllDirs(r.value[|lister(path).value|..])
  {
    if lister(path).Ok? {
      var files := lister(path).value;
      var more := WalkEntries(lister, bound, path, files, 0, maxdepth);
      WalkEntriesAppendsDirectories(lister, bound, path, files, 0, maxdepth);
      if more.Ok? {
        WalkShallowStep(lister, bound, path, maxdepth, files, more.value);
        assert (files + more.value)[|files|..] == more.value;
      }
    }
  }

  /**
   With a positive `maxdepth` no deeper than `path`, every remaining
   subdirectory lies beyond the limit: nothing more is peeked or appended.
   */
  lemma {:induction false} LimitedLoopAppendsNothing(lister: Lister, bound: nat, path: Path, files: seq<File>, i: nat, maxdepth: int)
    requires Bounded(lister, bound)
    requires i <= |files|
    requires |path| < bound || NoDescendable(files)
    requires 0 < maxdepth <= |path|
    ensures WalkEntries(lister, bound, path, files, i, maxdepth) == Ok([])
    decreases |files| - i
  {
    if i < |files| {
      LimitedLoopAppendsNothing(lister, bound, path, files, i + 1, maxdepth);
    }
  }

  /**
   Below the root (`|path| > 0`), once a peek finds content, `maxdepth`
   becomes the depth of `path` and no later sibling is peeked or descended.
   */
  lemma ContentPeekEndsLoop(lister: Lister, bound: nat, path: Path, files: seq<File>, i: nat, maxdepth: int)
    requires Bounded(lister, bound)
    requires i < |files|
    requires |path| < bound || NoDescendable(files)
    requires 0 < |path|
    requires Descendable(files[i])
    requires maxdepth <= 0 || |path| + 1 <= maxdepth
    requires lister(Join(path, files[i].name)).Ok? && HoldsContent(lister(Join(path, files[i].name)).value)
    ensures WalkEntries(lister, bound, path, files, i, maxdepth) == Ok([])
  {
    LimitedLoopAppendsNothing(lister, bound, path, files, i + 1, |path|);
  }

  /** No successful listing holds a non-directory: a tree of directories only. */
  ghost predicate ContentFree(lister: Lister)
  {
    forall p: Path :: lister(p).Ok? ==> !HoldsContent(lister(p).value)
  }

  /**
   Reference walk without peeking or depth limits: the listing of `path`
   followed by the full walks of all its subdirectories, in listing order.
   */
  function FullWalk(lister: Lister, bound: nat, path: Path): Result<seq<File>>
    requires Bounded(lister, bound)
    decreases bound - |path|, 1, 0
  {
    match lister(path)
    case Err(e) => Err(e)
    case Ok(files) =>
      match FullEntries(lister, bound, path, files, 0)
      case Err(e) => Err(e)
      case Ok(more) => Ok(files + more)
  }

  function FullEntries(lister: Lister, bound: nat, path: Path, files: seq<File>, i: nat): Result<seq<File>>
    requires Bounded(lister, bound)
    requires i <= |files|
    requires |path| < bound || NoDescendable(files)
    decreases bound - |path|, 0, |files| - i
  {
    if i == |files| then Ok([])
    else if !Descendable(files[i]) then FullEntries(lister, bound, path, files, i + 1)
    else
      match FullWalk(lister, bound, Join(path, files[i].name))
      case Err(e) => Err(e)
      case Ok(sub) =>
        match FullEntries(lister, bound, path, files, i + 1)
        case Err(e) => Err(e)
        case Ok(rest) => Ok(sub + rest)
  }

  /**
   On a tree of directories only, an unbounded adaptive walk (`maxdepth <= 0`)
   is exactly the full walk: every directory is listed and nothing is cut off.
   */
  lemma {:induction false} WalkShallowIsFullWalk(lister: Lister, bound: nat, path: Path, maxdepth: int)
    requires Bounded(lister, bound) && ContentFree(lister)
    requires maxdepth <= 0
    ensures WalkShallow(lister, bound, path, maxdepth) == FullWalk(lister, bound, path)
    decreases bound - |path|, 1, 0
  {
    if lister(path).Ok? {
      WalkEntriesIsFullEntries(lister, bound, path, lister(path).value, 0, maxdepth);
    }
  }

  lemma {:induction false} WalkEntriesIsFullEntries(lister: Lister, bound: nat, path: Path, files: seq<File>, i: nat, maxdepth: int)
    requires Bounded(lister, bound) && ContentFree(lister)
    requires i <= |files|
    requires |path| < bound || NoDescendable(files)
    requires maxdepth <= 0
    ensures WalkEntries(lister, bound, path, files, i, maxdepth) == FullEntries(lister, bound, path, files, i)
    decreases bound - |path|, 0, |files| - i
  {
    if i < |files| {
      WalkEntriesIsFullEntries(lister, bound, path, files, i + 1, maxdepth);
      if Descendable(files[i]) {
        WalkShallowIsFullWalk(lister, bound, Join(path, files[i].name), maxdepth);
      }
    }
  }

  // One-step unfoldings of the walk, for reasoning about concrete trees.

  lemma WalkShallowStep(lister: Lister, bound: nat, path: Path, maxdepth: int, files: seq<File>, more: seq<File>)
    requires Bounded(lister, bound)
    requires lister(path) == Ok(files)
    requires WalkEntries(lister, bound, path, files, 0, maxdepth) == Ok(more)
    ensures WalkShallow(lister, bound, path, maxdepth) == Ok(files + more)
  {
  }

  lemma WalkEntriesSkip(lister: Lister, bound: nat, path: Path, files: seq<File>, i: nat, maxdepth: int)
    requires Bounded(lister, bound)
    requires i < |files|
    requires |path| < bound || NoDescendable(files)
    requires !Descendable(files[i]) || (maxdepth > 0 && |path| + 1 > maxdepth)
    ensures WalkEntries(lister, bound, path, files, i, maxdepth) == WalkEntries(lister, bound, path, files, i + 1, maxdepth)
  {
  }

  lemma WalkEntriesContent(lister: Lister, bound: nat, path: Path, files: seq<File>, i: nat, maxdepth: int, peek: seq<File>)
    requires Bounded(lister, bound)
    requires i < |files|
    requires |path| < bound || NoDescendable(files)
    requires Descendable(files[i]) && !(maxdepth > 0 && |path| + 1 > maxdepth)
    requires lister(Join(path, files[i].name)) == Ok(peek) && HoldsContent(peek)
    ensures WalkEntries(lister, bound, path, files, i, maxdepth) == WalkEntries(lister, bound, path, files, i + 1, |path|)
  {
  }

  lemma WalkEntriesPeekFails(lister: Lister, bound: nat, path: Path, files: seq<File>, i: nat, maxdepth: int, e: Error)
    requires Bounded(lister, bound)
    requires i < |files|
    requires |path| < bound || NoDescendable(files)
    requires Descendable(files[i]) && !(maxdepth > 0 && |path| + 1 > maxdepth)
    requires lister(Join(path, files[i].name)) == Err(e)
    ensures WalkEntries(lister, bound, path, files, i, maxdepth) == Err(e)
  {
  }

  lemma WalkEntriesDescend(lister: Lister, bound: nat, path: Path, files: seq<File>, i: nat, maxdepth: int,
                           peek: seq<File>, sub: seq<File>, rest: seq<File>)
    requires Bounded(lister, bound)
    requires i < |files|
    requires |path| < bound || NoDescendable(files)
    requires Descendable(files[i]) && !(maxdepth > 0 && |path| + 1 > maxdepth)
    requires lister(Join(path, files[i].name)) == Ok(peek) && !HoldsContent(peek)
    requires WalkShallow(lister, bound, Join(path, files[i].name), maxdepth) == Ok(sub)
    requires WalkEntries(lister, bound, path, files, i + 1, maxdepth) == Ok(rest)
    ensures WalkEntries(lister, bound, path, files, i, maxdepth) == Ok(sub + rest)
  {
  }
}
